=== FILE: README.md ===
# Little Lemon: a Dafny model of the app's logic

Little Lemon is a small restaurant app for Android. Onboarding registers the user in the
`little_lemon` SharedPreferences file. The Home screen lists the menu, and the Profile
screen shows the stored fields and logs out. The menu comes from a JSON endpoint and is
cached in a Room table. It is then shown through a text and category filter.

This project models the logic under those screens:

- `text.dfy` (module `Text`): `contains(…, ignoreCase = true)`. It is a case-insensitive
  substring search, specified by "the query occurs at some offset".
- `lists.dfy` (module `Lists`): Kotlin's `filter` as `Keep`. It proves that `Keep` embeds its
  result into the input at exactly the accepted positions, in order. It also proves
  distribution over `+`, idempotence and commutation of two filters.
- `database.dfy` (module `Database`): the `Menu` row with its primary key `id`. The DAO is a
  class holding the table as a `seq<Menu>`. `getAllMenu` is a read. `insertAll` is a
  transaction loop that aborts on the first clashing id and then rolls back, which is Room's
  default ABORT strategy. The `AppDatabase` companion builds the database once.
- `network.dfy` (module `Network`): `MenuItemNetwork`, `MenuResponse`, `toMenu` and
  `Api.fetchMenu`. The fetch folds a `Success(response) | Failure` outcome to a list.
- `catalog.dfy` (module `Catalog`): `HomeViewModel` as a class with the fields `allItems`,
  `filtered`, `query` and `categories`. It holds `updateFilter`, the warm-up
  `loadInitialData`, and the pure `Filter` specification with its properties.
- `home.dfy` (module `Home`): the `onSearch` and `onCategorySelected` handlers, the
  category toggle and the four category buttons.
- `preferences.dfy` (module `Preferences`): the `little_lemon` file as a
  `map<string, Value>` inside a class. Reads take a default. The `Editor` follows Android's
  rule that a `clear()` is applied before the puts, whatever the call order.
- `onboarding.dfy`, `profile.dfy`, `navigation.dfy`: the Register guard and its single edit,
  the profile reads and Log out, and the start destination. The three destinations from
  `Destinations.kt` appear as a datatype here, with the route table of the navigation host.

The network and the disk are parameters of the model:

- The result of the HTTP request plus JSON decoding is a `FetchOutcome` argument.
- The rows already on disk when the database opens are a constructor argument.
- The preferences already on disk are a constructor argument too.

Three behaviours of the code worth noting:

- `loadInitialData` calls `insertAll` even when the fetch returned nothing. An empty
  insert changes nothing.
- The warm-up has no separate "warm" flag. Each call re-reads the table and fetches only
  while the table is empty.
- Log out removes every key rather than writing defaults. A read after it still gives
  `false` and `""`.

## Model

| member | source | states |
|---|---|---|
| Text.ContainsIgnoreCase | LittleLemon3/app/src/main/java/com/embul/littlelemon/HomeViewModel.kt:48-49 | the search is true exactly when the query occurs, ignoring case, at some offset of the text |
| Text.EmptyQueryEverywhere | LittleLemon3/app/src/main/java/com/embul/littlelemon/HomeViewModel.kt:48-49 | the empty query is found in every title |
| Text.CaseOfQueryIrrelevant | LittleLemon3/app/src/main/java/com/embul/littlelemon/HomeViewModel.kt:48-49 | whether a text contains the query does not depend on the ASCII case of the query's letters |
| Lists.Keep | LittleLemon3/app/src/main/java/com/embul/littlelemon/HomeViewModel.kt:46-53 | `filter` keeps x exactly when x is in the input and the predicate accepts it, and never lengthens the list |
| Lists.KeepEmbedsAtPositions | LittleLemon3/app/src/main/java/com/embul/littlelemon/HomeViewModel.kt:46-53 | the kept list is the input read at the accepted positions in increasing order, and a position is used iff its element is accepted |
| Lists.KeepSamePred | LittleLemon3/app/src/main/java/com/embul/littlelemon/HomeViewModel.kt:46-53 | a `filter` pass depends only on the predicate's answers for the list's own elements |
| Lists.KeepCommutes | LittleLemon3/app/src/main/java/com/embul/littlelemon/HomeViewModel.kt:46-53 | applying the two `.filter` passes in either order gives the same list |
| Catalog.Filter | LittleLemon3/app/src/main/java/com/embul/littlelemon/HomeViewModel.kt:46-53 | the text pass then the category pass; never longer than the input and shows only items of the input |
| Catalog.FilterMembership | LittleLemon3/app/src/main/java/com/embul/littlelemon/HomeViewModel.kt:45-53 | soundness and completeness: an item is shown iff it is in `allItems`, matches the query in title or description, and its category is selected or none is |
| Catalog.FilterIsSubsequence | LittleLemon3/app/src/main/java/com/embul/littlelemon/HomeViewModel.kt:45-53 | the filtered list is a subsequence of `allItems` in the same relative order |
| Catalog.EmptyCriteriaShowEverything | LittleLemon3/app/src/main/java/com/embul/littlelemon/HomeViewModel.kt:47-53 | an empty query with no category selected shows `allItems` exactly |
| Catalog.FilterIgnoresQueryCase | LittleLemon3/app/src/main/java/com/embul/littlelemon/HomeViewModel.kt:47-50 | two queries that differ only in the ASCII case of their letters show the same items, in the same order |
| Catalog.FilterIdempotent | LittleLemon3/app/src/main/java/com/embul/littlelemon/HomeViewModel.kt:45-54 | filtering the filtered list again with the same criteria changes nothing |
| Catalog.SearchIgnoresCaseExample | LittleLemon3/app/src/main/java/com/embul/littlelemon/HomeViewModel.kt:47-50 | on Greek Salad, Bruschetta and Lemon Dessert, the query "lemon" keeps only Lemon Dessert |
| Catalog.CategoryExample | LittleLemon3/app/src/main/java/com/embul/littlelemon/HomeViewModel.kt:51-53 | on the same list, selecting "starters" keeps Greek Salad and Bruschetta in that order |
| Catalog.SeededFromFailure | LittleLemon3/app/src/main/java/com/embul/littlelemon/HomeViewModel.kt:31-40 | warming an empty table against a failing server leaves it, and so the menu, empty |
| Catalog.SeededFromDistinctMenu | LittleLemon3/app/src/main/java/com/embul/littlelemon/HomeViewModel.kt:31-34 | warming an empty table against a menu with distinct ids stores exactly that menu mapped by `toMenu`, in order |
| Catalog.SeededFromRepeatedIds | LittleLemon3/app/src/main/java/com/embul/littlelemon/HomeViewModel.kt:32-37 | a fetched menu that repeats an id aborts the insert, the exception is swallowed and the table stays empty |
| Catalog.HomeViewModel.constructor | LittleLemon3/app/src/main/java/com/embul/littlelemon/HomeViewModel.kt:14-23 | both lists start empty, the query is "" and no category is selected |
| Catalog.HomeViewModel.UpdateFilter | LittleLemon3/app/src/main/java/com/embul/littlelemon/HomeViewModel.kt:45-54 | only `filtered` changes, and it becomes the filter of `allItems` by the current criteria; so a second call repeats the first |
| Catalog.HomeViewModel.LoadInitialData | LittleLemon3/app/src/main/java/com/embul/littlelemon/HomeViewModel.kt:29-43 | the network is used iff the table was empty; a non-empty table is left as it was; an empty one becomes the seeded rows; then `allItems` is a fresh read of the table and `filtered` is its filter |
| Catalog.LoadInitialDataTwice | LittleLemon3/app/src/main/java/com/embul/littlelemon/HomeViewModel.kt:29-43 | of two warm-ups in a row, the second asks the network again iff the first left the table empty; a non-empty table is kept, an empty one is seeded from the second answer; criteria are untouched |
| Catalog.OpenHome | LittleLemon3/app/src/main/java/com/embul/littlelemon/HomeViewModel.kt:14-27 | the view model uses the table the holder keeps; its items are exactly that key-valid table's rows and all are shown; on first open they are the persisted rows, or the seeded menu if none were persisted |
| Home.Toggle | LittleLemon3/app/src/main/java/com/embul/littlelemon/Home.kt:76-81 | the clicked category is selected afterwards iff it was not before, and every other category keeps its membership |
| Home.ToggleTwiceRestores | LittleLemon3/app/src/main/java/com/embul/littlelemon/Home.kt:77-81 | clicking the same category twice restores the selection |
| Home.ClicksStayWithinButtons | LittleLemon3/app/src/main/java/com/embul/littlelemon/Home.kt:252-256 | starting within {starters, mains, desserts, drinks}, from the empty set for one, any run of button clicks stays within those four |
| Home.OnSearch | LittleLemon3/app/src/main/java/com/embul/littlelemon/Home.kt:67-70 | the query becomes the typed text and the filtered list reflects it; items and categories are untouched |
| Home.OnCategorySelected | LittleLemon3/app/src/main/java/com/embul/littlelemon/Home.kt:76-83 | the selection is toggled and the filtered list reflects the new selection; items and query are untouched |
| Database.UniqueIdsAppend | LittleLemon3/app/src/main/java/com/embul/littlelemon/Database.kt:14-15 | a table plus a batch satisfies the primary key iff each does and they share no id |
| Database.Inserted | LittleLemon3/app/src/main/java/com/embul/littlelemon/Database.kt:28-29 | a bulk insert never removes or alters stored rows and adds only rows of the batch |
| Database.InsertedKeepsKey | LittleLemon3/app/src/main/java/com/embul/littlelemon/Database.kt:28-29 | a bulk insert keeps the primary-key constraint and either appends the whole batch or changes nothing |
| Database.InsertIntoEmptyRoundTrip | LittleLemon3/app/src/main/java/com/embul/littlelemon/Database.kt:25-29 | distinct-id rows inserted into an empty table read back exactly, as a sequence and as a multiset |
| Database.InsertRejectsStoredId | LittleLemon3/app/src/main/java/com/embul/littlelemon/Database.kt:28-29 | a batch containing an id already stored leaves the table unchanged |
| Database.InsertRejectsRepeatedId | LittleLemon3/app/src/main/java/com/embul/littlelemon/Database.kt:28-29 | a batch repeating an id within itself leaves the table unchanged |
| Database.MenuDao.constructor | LittleLemon3/app/src/main/java/com/embul/littlelemon/Database.kt:12-21 | the table opens holding the persisted rows, whose ids are unique |
| Database.MenuDao.GetAllMenu | LittleLemon3/app/src/main/java/com/embul/littlelemon/Database.kt:25-26 | returns every stored row and changes nothing |
| Database.MenuDao.InsertAll | LittleLemon3/app/src/main/java/com/embul/littlelemon/Database.kt:28-29 | commits iff no id clashes, appending the batch; otherwise reports a clashing id of the batch and leaves the table as it was; the key constraint is kept |
| Database.AppDatabase.constructor | LittleLemon3/app/src/main/java/com/embul/littlelemon/Database.kt:32-34 | a new database whose DAO holds the persisted rows |
| Database.DatabaseHolder.GetDatabase | LittleLemon3/app/src/main/java/com/embul/littlelemon/Database.kt:40-51 | once `Instance` is set it is returned unchanged; otherwise a fresh database is built and stored; either way the returned table keeps its key constraint |
| Database.DatabaseHolder.constructor | LittleLemon3/app/src/main/java/com/embul/littlelemon/Database.kt:36-37 | no database exists before the first `getDatabase`, so the holder is trivially valid |
| Database.GetDatabaseTwice | LittleLemon3/app/src/main/java/com/embul/littlelemon/Database.kt:40-51 | two successive calls return the same database |
| Network.ToMenu | LittleLemon3/app/src/main/java/com/embul/littlelemon/Network.kt:30-37 | all six fields are copied unchanged |
| Network.ToMenuInjective | LittleLemon3/app/src/main/java/com/embul/littlelemon/Network.kt:30-37 | two network items with the same row are the same item: the mapping loses nothing |
| Network.ToMenus | LittleLemon3/app/src/main/java/com/embul/littlelemon/HomeViewModel.kt:33 | `map { it.toMenu() }` keeps length and order, mapping each item in place |
| Network.ToMenusKeepsIds | LittleLemon3/app/src/main/java/com/embul/littlelemon/Network.kt:30-37 | the mapped rows carry the same ids, and are key-valid iff the network ids are distinct |
| Network.FetchMenu | LittleLemon3/app/src/main/java/com/embul/littlelemon/Network.kt:50-58 | a decoded body yields its `menu` list unchanged; any failure yields the empty list; it never fails |
| Network.FailureLooksEmpty | LittleLemon3/app/src/main/java/com/embul/littlelemon/Network.kt:54-56 | a failed fetch and a genuinely empty menu give the same result |
| Network.FetchEmptyIff | LittleLemon3/app/src/main/java/com/embul/littlelemon/Network.kt:50-58 | the result is empty iff the fetch failed or the served menu was empty |
| Preferences.GetBoolean | LittleLemon3/app/src/main/java/com/embul/littlelemon/NavigationComposable.kt:19 | the stored boolean of the key, or the default when the key is absent |
| Preferences.GetString | LittleLemon3/app/src/main/java/com/embul/littlelemon/Profile.kt:42-50 | the stored string of the key, or the default when the key is absent |
| Preferences.SharedPreferences.constructor | LittleLemon3/app/src/main/java/com/embul/littlelemon/Onboarding.kt:123 | the `little_lemon` file opens holding the persisted values, each of the app's keys absent or of its type |
| Preferences.Edit | LittleLemon3/app/src/main/java/com/embul/littlelemon/Onboarding.kt:125 | committing a fresh editor leaves the file unchanged |
| Preferences.Editor.PutBoolean | LittleLemon3/app/src/main/java/com/embul/littlelemon/Onboarding.kt:126 | committing after `putBoolean` is committing before it and then setting the key to the boolean |
| Preferences.Editor.PutString | LittleLemon3/app/src/main/java/com/embul/littlelemon/Onboarding.kt:127-129 | committing after `putString` is committing before it and then setting the key to the string |
| Preferences.Editor.Clear | LittleLemon3/app/src/main/java/com/embul/littlelemon/Profile.kt:89 | after `clear()` the commit starts from an empty file, whatever it held, with the puts still written |
| Preferences.Applied | LittleLemon3/app/src/main/java/com/embul/littlelemon/Onboarding.kt:125-130 | after a commit the keys are the put keys, plus the old keys unless a clear was requested, and each put key holds its put value |
| Preferences.AppliedPointwise | LittleLemon3/app/src/main/java/com/embul/littlelemon/Onboarding.kt:125-130 | a commit sets each put key to its value; other keys are kept, or all dropped when a clear was requested |
| Preferences.ClearedReadsDefaults | LittleLemon3/app/src/main/java/com/embul/littlelemon/Profile.kt:89 | after `edit().clear().commit()` the file is empty and every read gives its default |
| Preferences.SharedPreferences.Commit | LittleLemon3/app/src/main/java/com/embul/littlelemon/Onboarding.kt:130 | the editor's changes are applied in one step |
| Onboarding.IsComplete | LittleLemon3/app/src/main/java/com/embul/littlelemon/Onboarding.kt:114 | a form passes the guard iff all three fields are non-empty, so the untouched form never does |
| Onboarding.RegistrationEdit | LittleLemon3/app/src/main/java/com/embul/littlelemon/Onboarding.kt:125-129 | the registration edit does not clear and puts exactly `user_registered` as true and the three fields as entered |
| Onboarding.RegistrationWritesFourKeys | LittleLemon3/app/src/main/java/com/embul/littlelemon/Onboarding.kt:125-130 | the registration edit sets `user_registered` to true and the three fields to exactly the entered texts, and no other key changes |
| Onboarding.InitialFormRejected | LittleLemon3/app/src/main/java/com/embul/littlelemon/Onboarding.kt:44-52 | the fields start as "", so Register on an untouched form is rejected |
| Onboarding.BlankFieldsAccepted | LittleLemon3/app/src/main/java/com/embul/littlelemon/Onboarding.kt:114 | every form whose fields are non-empty and made only of spaces passes the guard, which tests emptiness and not blankness |
| Onboarding.RegisteredStartsAtHome | LittleLemon3/app/src/main/java/com/embul/littlelemon/NavigationComposable.kt:18-22 | after the registration write, the app starts at Home |
| Onboarding.Register | LittleLemon3/app/src/main/java/com/embul/littlelemon/Onboarding.kt:113-139 | rejected iff some field is empty, and then nothing is written and there is no navigation; otherwise the registration edit is committed and the next destination is Home |
| Profile.ReadProfile | LittleLemon3/app/src/main/java/com/embul/littlelemon/Profile.kt:42-50 | each shown field is the stored string of its key, or "" when the key is absent |
| Profile.LogoutEdit | LittleLemon3/app/src/main/java/com/embul/littlelemon/Profile.kt:89 | the Log out edit requests a clear and puts nothing |
| Profile.RegisteredProfileReadsBack | LittleLemon3/app/src/main/java/com/embul/littlelemon/Profile.kt:42-50 | after the registration write, the profile shows exactly the entered first name, last name and email |
| Profile.LoggedOutProfileIsEmpty | LittleLemon3/app/src/main/java/com/embul/littlelemon/Profile.kt:87-93 | after Log out the file is empty and all three fields read "" |
| Profile.LoggedOutStartsAtOnboarding | LittleLemon3/app/src/main/java/com/embul/littlelemon/NavigationComposable.kt:18-22 | after Log out the app starts at Onboarding |
| Profile.RegisterThenLogoutForgetsEverything | LittleLemon3/app/src/main/java/com/embul/littlelemon/Profile.kt:89 | registering and then logging out leaves an empty file, whatever it held before |
| Profile.Logout | LittleLemon3/app/src/main/java/com/embul/littlelemon/Profile.kt:86-94 | the clear is committed first, leaving the file empty, and only then is Onboarding returned as the destination |
| Navigation.NavGraphBindsEachDestination | LittleLemon3/app/src/main/java/com/embul/littlelemon/NavigationComposable.kt:24-37 | exactly three routes are registered, each destination's route leads to its own screen, and no two share a route or a screen |
| Navigation.StartDestination | LittleLemon3/app/src/main/java/com/embul/littlelemon/NavigationComposable.kt:18-22 | the start is Home or Onboarding, read from `user_registered` with default false |
| Navigation.StartIsHomeIffRegistered | LittleLemon3/app/src/main/java/com/embul/littlelemon/NavigationComposable.kt:18-22 | the start is Home iff `user_registered` is stored as true, and Onboarding otherwise |
| Navigation.NeverRegisteredStartsAtOnboarding | LittleLemon3/app/src/main/java/com/embul/littlelemon/NavigationComposable.kt:19-22 | with no `user_registered` key (default false) the start is Onboarding |
| Navigation.StartIsRegisteredRoute | LittleLemon3/app/src/main/java/com/embul/littlelemon/NavigationComposable.kt:22-27 | the start destination is always one of the registered routes |

## Left out

- Compose layout and widgets are not modelled. This covers `AppBar`, `Card`, `SearchBar`, the
  `Content` layout, `FilterButton`, `MenuItem`, `LabeledTextField`, `LabeledText`, images and
  colours. Toasts appear only as the message in `Onboarding.RegisterOutcome`.
- `ui/theme/Type.kt` holds font and size constants and no logic.
- `HomeViewModelFactory` is not modelled; it is framework glue with an unchecked cast.
- Coroutines, `StateFlow` emission and `remember` run as plain sequential steps. The model
  reads the preferences when a function is called, not once per composition.
  `HomeViewModel`'s `init` launches the warm-up asynchronously: the constructor gives the
  initial state, and `LoadInitialData` is the launched work.
- Onboarding navigates before its background commit is known to finish. The model commits
  first; that race is not modelled.
- The `@Volatile`/`synchronized` initialisation of `AppDatabase.Instance` is not modelled for
  concurrency. Only its sequential init-once behaviour is modelled.
- The Ktor HTTP client and the kotlinx JSON decoder are foreign code. Their combined
  result is the `FetchOutcome` parameter, and `e.printStackTrace()` is not modelled.
- Room internals are not modelled: generated DAO code, the SQL text, `databaseBuilder` and
  migrations. `SELECT * FROM Menu` has no `ORDER BY`; the model reads rows back in insertion
  order, a choice of the model, on which the order in `Catalog.SeededFromDistinctMenu` and the
  sequence equality of `Database.InsertIntoEmptyRoundTrip` rest.
- Text.ContainsIgnoreCase: folds case on ASCII letters only. Kotlin's Unicode upper- and
  lower-case mapping is not modelled.
- Database.Menu: `id` is an unbounded integer rather than a 32-bit `Int`. Ids are only
  compared, so the width does not matter.
- Preferences.GetBoolean, Preferences.GetString and Preferences.SharedPreferences.constructor:
  require the key to be absent or of the right type. Android opens a file whose keys have other
  types and throws `ClassCastException` only on the read. The app writes each of its keys with
  a single type, as `WellTyped` states.
- Preferences.SharedPreferences.Commit: a failed disk write (`commit()` returning false) and
  `Editor.remove`/null values are not modelled. The app uses neither.

=== FILE: catalog.dfy ===
/** `HomeViewModel`: the cached menu, the search criteria, the filtered list derived from
    them, and the one-shot warm-up that seeds the local table from the network. */
module Catalog {
  import opened Database
  import opened Network
  import opened Lists
  import Text

  /** The first filter: the query is a case-insensitive substring of the title or of the
      description. */
  predicate MatchesQuery(m: Menu, query: string) {
    Text.ContainsIgnoreCase(m.title, query) || Text.ContainsIgnoreCase(m.description, query)
  }

  /** The second filter: no category selected, or the item's category is selected. */
  predicate InSelectedCategories(m: Menu, categories: set<string>) {
    categories == {} || m.category in categories
  }

  function QueryPredicate(query: string): Menu -> bool {
    m => MatchesQuery(m, query)
  }

  function CategoryPredicate(categories: set<string>): Menu -> bool {
    m => InSelectedCategories(m, categories)
  }

  /** The value `updateFilter` assigns: the text filter, then the category filter. */
  function Filter(items: seq<Menu>, query: string, categories: set<string>): (r: seq<Menu>)
    ensures |r| <= |items|
    ensures forall m :: m in r ==> m in items
  {
    Keep(Keep(items, QueryPredicate(query)), CategoryPredicate(categories))
  }

  /** Soundness and completeness: an item is in the filtered list exactly when it is in the
      input and passes both filters. */
  lemma FilterMembership(items: seq<Menu>, query: string, categories: set<string>)
    ensures forall m :: m in Filter(items, query, categories) <==>
      m in items && MatchesQuery(m, query) && InSelectedCategories(m, categories)
  {
  }

  /** The filtered list is a subsequence of the input: same relative order, nothing added. */
  lemma FilterIsSubsequence(items: seq<Menu>, query: string, categories: set<string>)
    ensures IsSubsequence(Filter(items, query, categories), items)
  {
    var qp, cp := QueryPredicate(query), CategoryPredicate(categories);
    var first := Keep(items, qp);
    KeepEmbedsAtPositions(items, qp);
    KeepEmbedsAtPositions(first, cp);
    var outer, inner := Positions(first, cp), Positions(items, qp);
    var composed := seq(|outer|, k requires 0 <= k < |outer| => inner[outer[k]]);
    assert Embedding(composed, Filter(items, query, categories), items);
  }

  /** With an empty query and no category selected the list is shown unchanged. */
  lemma EmptyCriteriaShowEverything(items: seq<Menu>)
    ensures Filter(items, "", {}) == items
  {
    forall m | m in items ensures QueryPredicate("")(m) {
      Text.EmptyQueryEverywhere(m.title);
    }
    KeepAll(items, QueryPredicate(""));
    KeepAll(items, CategoryPredicate({}));
  }

  /** Two queries that differ only in the ASCII case of their letters show the same items. */
  lemma FilterIgnoresQueryCase(items: seq<Menu>, q: string, q': string, categories: set<string>)
    requires |q| == |q'|
    requires forall j :: 0 <= j < |q| ==> Text.SameIgnoringCase(q[j], q'[j])
    ensures Filter(items, q, categories) == Filter(items, q', categories)
  {
    forall m | m in items ensures QueryPredicate(q)(m) == QueryPredicate(q')(m) {
      Text.CaseOfQueryIrrelevant(m.title, q, q');
      Text.CaseOfQueryIrrelevant(m.description, q, q');
    }
    KeepSamePred(items, QueryPredicate(q), QueryPredicate(q'));
  }

  /** Filtering the filtered list again changes nothing. */
  lemma FilterIdempotent(items: seq<Menu>, query: string, categories: set<string>)
    ensures Filter(Filter(items, query, categories), query, categories) == Filter(items, query, categories)
  {
    var qp, cp := QueryPredicate(query), CategoryPredicate(categories);
    var once := Keep(items, qp);
    var shown := Keep(once, cp);
    calc {
      Keep(Keep(shown, qp), cp);
      { KeepCommutes(once, cp, qp); }
      Keep(Keep(Keep(once, qp), cp), cp);
      { KeepIdempotent(items, qp); }
      Keep(shown, cp);
      { KeepIdempotent(once, cp); }
      shown;
    }
  }

  /** Three sample rows: two starters and a dessert. */
  const GreekSalad := Menu(1, "Greek Salad", "", "10", "", "starters")
  const Bruschetta := Menu(2, "Bruschetta", "", "8", "", "starters")
  const LemonDessert := Menu(3, "Lemon Dessert", "", "9", "", "desserts")

  /** Searching "lemon" finds the title "Lemon Dessert" whatever its case, and nothing else. */
  lemma SearchIgnoresCaseExample()
    ensures Filter([GreekSalad, Bruschetta, LemonDessert], "lemon", {}) == [LemonDessert]
  {
    var qp, cp := QueryPredicate("lemon"), CategoryPredicate({});
    OnlyLemonDessertMatches();
    KeepOfThree(GreekSalad, Bruschetta, LemonDessert, qp);
    assert Keep([GreekSalad, Bruschetta, LemonDessert], qp) == [LemonDessert];
    KeepAll([LemonDessert], cp);
  }

  lemma OnlyLemonDessertMatches()
    ensures !MatchesQuery(GreekSalad, "lemon")
    ensures !MatchesQuery(Bruschetta, "lemon")
    ensures MatchesQuery(LemonDessert, "lemon")
  {
    LemonDessertHasLemon();
    GreekSaladHasNoLemon();
    BruschettaHasNoLemon();
  }

  lemma LemonDessertHasLemon()
    ensures Text.ContainsIgnoreCase(LemonDessert.title, "lemon")
  {
    assert Text.OccursAt(LemonDessert.title, "lemon", 0);
  }

  lemma BruschettaHasNoLemon()
    ensures !Text.ContainsIgnoreCase(Bruschetta.title, "lemon")
  {
    Text.FirstLetterNeverFits(Bruschetta.title, "lemon");
  }

  lemma GreekSaladHasNoLemon()
    ensures !Text.ContainsIgnoreCase(GreekSalad.title, "lemon")
  {
    var t := GreekSalad.title;
    forall i | 0 <= i && i + 5 <= |t| ensures !Text.SameIgnoringCase(t[i], 'l') {
      assert i <= 6;
    }
    Text.FirstLetterNeverFits(t, "lemon");
  }

  /** Selecting "starters" keeps both starters, in their original order. */
  lemma CategoryExample()
    ensures Filter([GreekSalad, Bruschetta, LemonDessert], "", {"starters"}) == [GreekSalad, Bruschetta]
  {
    var items := [GreekSalad, Bruschetta, LemonDessert];
    KeepAll(items, QueryPredicate("")) by {
      forall m | m in items ensures QueryPredicate("")(m) {
        Text.EmptyQueryEverywhere(m.title);
      }
    }
    KeepOfThree(GreekSalad, Bruschetta, LemonDessert, CategoryPredicate({"starters"}));
  }

  lemma KeepOfThree(a: Menu, b: Menu, c: Menu, p: Menu -> bool)
    ensures Keep([a, b, c], p) == (if p(a) then [a] else []) + (if p(b) then [b] else []) + (if p(c) then [c] else [])
  {
    assert [a, b, c] == [a] + [b] + [c];
    KeepAppend([a] + [b], [c], p);
    KeepAppend([a], [b], p);
    assert [a][..0] == [] && [b][..0] == [] && [c][..0] == [];
  }

  /** The rows of an empty table after the warm-up has inserted the fetched menu: the mapped
      items when their ids are distinct, and nothing when the insert aborted. */
  function Seeded(outcome: FetchOutcome): seq<Menu> {
    Inserted([], ToMenus(FetchMenu(outcome)))
  }

  /** Warming up against a failing server leaves the table, and so the menu, empty. */
  lemma SeededFromFailure()
    ensures Seeded(Failure) == []
  {
  }

  /** Warming up against a server with distinct ids stores exactly the mapped menu. */
  lemma SeededFromDistinctMenu(response: MenuResponse)
    requires DistinctIds(response.menu)
    ensures Seeded(Success(response)) == ToMenus(response.menu)
  {
  }

  /** A menu that repeats an id is rejected by the table as a whole, so nothing is stored. */
  lemma SeededFromRepeatedIds(response: MenuResponse)
    requires !DistinctIds(response.menu)
    ensures Seeded(Success(response)) == []
  {
    ToMenusKeepsIds(response.menu);
    assert [] + ToMenus(response.menu) == ToMenus(response.menu);
  }

  class HomeViewModel {
    const menuDao: MenuDao
    var allItems: seq<Menu>
    var filtered: seq<Menu>
    var query: string
    var categories: set<string>

    /** Both lists empty, an empty query and no category selected. The warm-up launched by
        `init` runs afterwards, as `LoadInitialData`. */
    constructor (database: AppDatabase)
      ensures menuDao == database.menuDao
      ensures allItems == [] && filtered == [] && query == "" && categories == {}
    {
      menuDao := database.menuDao;
      allItems, filtered := [], [];
      query, categories := "", {};
    }

    /** Recomputes the filtered list from the current items and criteria; nothing else changes. */
    method UpdateFilter()
      modifies this`filtered
      ensures filtered == Filter(allItems, query, categories)
    {
      var matching := Keep(allItems, QueryPredicate(query));
      filtered := Keep(matching, CategoryPredicate(categories));
    }

    /** The warm-up: read the table; only if it is empty, fetch, map and insert the menu,
        swallowing a failed insert; then re-read the table and recompute the filter.
        `fetched` tells whether the network was asked. */
    method LoadInitialData(outcome: FetchOutcome) returns (fetched: bool)
      requires menuDao.Valid()
      modifies this`allItems, this`filtered, menuDao
      ensures menuDao.Valid()
      ensures fetched <==> old(menuDao.rows) == []
      ensures !fetched ==> menuDao.rows == old(menuDao.rows)
      ensures fetched ==> menuDao.rows == Seeded(outcome)
      ensures allItems == menuDao.rows
      ensures filtered == Filter(allItems, query, categories)
    {
      var current := menuDao.GetAllMenu();
      fetched := |current| == 0;
      if fetched {
        var apiData := ToMenus(FetchMenu(outcome));
        var _ := menuDao.InsertAll(apiData);
      }
      allItems := menuDao.GetAllMenu();
      UpdateFilter();
    }
  }

  /** Two warm-ups in a row with nothing else touching the table, the network answering `o1`
      and then `o2`: the second asks the network again only if the first left the table empty;
      a non-empty table is kept as it is, and an empty one is seeded from the second answer. */
  method LoadInitialDataTwice(vm: HomeViewModel, o1: FetchOutcome, o2: FetchOutcome)
    returns (first: seq<Menu>, second: seq<Menu>, refetched: bool)
    requires vm.menuDao.Valid()
    modifies vm`allItems, vm`filtered, vm.menuDao
    ensures refetched <==> first == []
    ensures first != [] ==> second == first
    ensures first == [] ==> second == Seeded(o2)
    ensures vm.allItems == second
  {
    var _ := vm.LoadInitialData(o1);
    first := vm.allItems;
    refetched := vm.LoadInitialData(o2);
    second := vm.allItems;
  }

  /** Opening the Home screen: get the shared database, build the view model over its DAO and
      run the warm-up. With no criteria yet, the list shown is every row of the table. */
  method OpenHome(holder: DatabaseHolder, persisted: seq<Menu>, outcome: FetchOutcome)
    returns (vm: HomeViewModel)
    requires UniqueIds(persisted) && holder.Valid()
    modifies holder, if holder.instance != null then {holder.instance.menuDao} else {}
    ensures holder.Valid() && holder.instance != null && vm.menuDao == holder.instance.menuDao
    ensures vm.menuDao.Valid() && UniqueIds(vm.allItems)
    ensures vm.allItems == vm.menuDao.rows
    ensures old(holder.instance) == null && persisted != [] ==> vm.allItems == persisted
    ensures old(holder.instance) == null && persisted == [] ==> vm.allItems == Seeded(outcome)
    ensures vm.filtered == vm.allItems
  {
    var db := holder.GetDatabase(persisted);
    vm := new HomeViewModel(db);
    var _ := vm.LoadInitialData(outcome);
    EmptyCriteriaShowEverything(vm.allItems);
  }
}

=== FILE: database.dfy ===
/** The local Room database: the `Menu` table keyed by `id`, its DAO (`getAllMenu`,
    `insertAll`) and the process-wide `AppDatabase` handle that is created once. */
module Database {

  /** One row of the `Menu` table; `id` is the primary key. */
  datatype Menu = Menu(id: int, title: string, description: string, price: string, image: string, category: string)

  /** The ids present in a list of rows. */
  function Ids(rows: seq<Menu>): set<int> {
    set m | m in rows :: m.id
  }

  /** No two rows share an id: the primary-key constraint of the table. */
  predicate UniqueIds(rows: seq<Menu>) {
    forall i, j :: 0 <= i < j < |rows| ==> rows[i].id != rows[j].id
  }

  /** Appending keeps ids unique exactly when both parts have unique ids and share none. */
  lemma UniqueIdsAppend(a: seq<Menu>, b: seq<Menu>)
    ensures UniqueIds(a + b) <==> UniqueIds(a) && UniqueIds(b) && Ids(a) !! Ids(b)
  {
    var ab := a + b;
    if UniqueIds(ab) {
      forall i, j | 0 <= i < j < |a| ensures a[i].id != a[j].id {
        assert ab[i] == a[i] && ab[j] == a[j];
      }
      forall i, j | 0 <= i < j < |b| ensures b[i].id != b[j].id {
        assert ab[|a| + i] == b[i] && ab[|a| + j] == b[j];
      }
      forall x | x in Ids(a) ensures x !in Ids(b) {
        var m :| m in a && m.id == x;
        var i :| 0 <= i < |a| && a[i] == m;
        forall j | 0 <= j < |b| ensures b[j].id != x {
          assert ab[i] == a[i] && ab[|a| + j] == b[j];
        }
      }
    }
    if UniqueIds(a) && UniqueIds(b) && Ids(a) !! Ids(b) {
      forall i, j | 0 <= i < j < |ab| ensures ab[i].id != ab[j].id {
        if j < |a| {
          assert ab[i] == a[i] && ab[j] == a[j];
        } else if |a| <= i {
          assert ab[i] == b[i - |a|] && ab[j] == b[j - |a|];
        } else {
          assert ab[i] == a[i] && ab[j] == b[j - |a|];
          assert ab[i].id in Ids(a) && ab[j].id in Ids(b);
        }
      }
    }
  }

  /** The table after a bulk insert under Room's default ABORT conflict strategy: the whole
      batch is appended when no id clashes, and nothing is written otherwise. */
  function Inserted(rows: seq<Menu>, batch: seq<Menu>): (r: seq<Menu>)
    ensures rows <= r
    ensures forall m :: m in r ==> m in rows || m in batch
  {
    if UniqueIds(rows + batch) then rows + batch else rows
  }

  /** Inserting into a table that keeps its key constraint keeps it, whatever the batch. */
  lemma InsertedKeepsKey(rows: seq<Menu>, batch: seq<Menu>)
    requires UniqueIds(rows)
    ensures UniqueIds(Inserted(rows, batch))
    ensures Inserted(rows, batch) == rows || Inserted(rows, batch) == rows + batch
  {
  }

  /** A batch of distinct ids inserted into the empty table is read back exactly, as a
      multiset too. */
  lemma InsertIntoEmptyRoundTrip(batch: seq<Menu>)
    requires UniqueIds(batch)
    ensures Inserted([], batch) == batch
    ensures multiset(Inserted([], batch)) == multiset(batch)
  {
  }

  /** A batch holding a row whose id is already stored is rejected as a whole. */
  lemma InsertRejectsStoredId(rows: seq<Menu>, batch: seq<Menu>, m: Menu)
    requires m in batch && m.id in Ids(rows)
    ensures Inserted(rows, batch) == rows
  {
    UniqueIdsAppend(rows, batch);
    assert m.id in Ids(batch);
  }

  /** A batch that repeats an id within itself is rejected as a whole. */
  lemma InsertRejectsRepeatedId(rows: seq<Menu>, batch: seq<Menu>, i: int, j: int)
    requires 0 <= i < j < |batch| && batch[i].id == batch[j].id
    ensures Inserted(rows, batch) == rows
  {
    UniqueIdsAppend(rows, batch);
  }

  /** How a bulk insert ends: committed, or aborted by a primary-key clash on `id`
      (Room raises a constraint exception and rolls the transaction back). */
  datatype InsertResult = Committed | ConstraintViolation(id: int)

  /** The DAO over the `Menu` table. */
  class MenuDao {
    var rows: seq<Menu>

    /** The primary-key constraint holds for the stored rows. */
    ghost predicate Valid()
      reads this
    {
      UniqueIds(rows)
    }

    /** Opens the table with the rows already persisted on the device. */
    constructor (persisted: seq<Menu>)
      requires UniqueIds(persisted)
      ensures Valid() && rows == persisted
    {
      rows := persisted;
    }

    /** `SELECT * FROM Menu`: every stored row, and the table is left as it was. */
    method GetAllMenu() returns (r: seq<Menu>)
      ensures r == rows
    {
      r := rows;
    }

    /** `@Insert` with the default ABORT strategy: the rows are inserted one at a time inside a
        transaction; the first id already present aborts it and rolls every row back. */
    method InsertAll(batch: seq<Menu>) returns (result: InsertResult)
      requires Valid()
      modifies this
      ensures Valid()
      ensures result == Committed <==> UniqueIds(old(rows) + batch)
      ensures result.ConstraintViolation? ==> result.id in Ids(batch)
      ensures rows == Inserted(old(rows), batch)
    {
      var staged := rows;
      var i := 0;
      while i < |batch|
        invariant 0 <= i <= |batch|
        invariant rows == old(rows)
        invariant staged == rows + batch[..i]
        invariant UniqueIds(staged)
      {
        var m := batch[i];
        if m.id in Ids(staged) {
          UniqueIdsAppend(rows, batch);
          UniqueIdsAppend(rows, batch[..i]);
          ClashBlocksBatch(rows, batch, i);
          return ConstraintViolation(m.id);
        }
        UniqueIdsAppend(staged, [m]);
        assert batch[..i + 1] == batch[..i] + [m];
        staged := staged + [m];
        i := i + 1;
      }
      assert batch[..i] == batch;
      rows := staged;
      return Committed;
    }
  }

  /** If the row at position `i` of the batch clashes with the table plus the rows before it,
      the whole batch cannot be inserted. */
  lemma ClashBlocksBatch(rows: seq<Menu>, batch: seq<Menu>, i: int)
    requires 0 <= i < |batch|
    requires batch[i].id in Ids(rows + batch[..i])
    ensures !UniqueIds(rows + batch)
  {
    var ab := rows + batch;
    var staged := rows + batch[..i];
    var m :| m in staged && m.id == batch[i].id;
    var k :| 0 <= k < |staged| && staged[k] == m;
    assert ab[k] == staged[k];
    assert ab[|rows| + i] == batch[i];
  }

  /** The database: one `Menu` table reached through its DAO. */
  class AppDatabase {
    const menuDao: MenuDao

    constructor (persisted: seq<Menu>)
      requires UniqueIds(persisted)
      ensures fresh(menuDao) && menuDao.Valid() && menuDao.rows == persisted
    {
      menuDao := new MenuDao(persisted);
    }
  }

  /** The companion object holding the process-wide `Instance`. */
  class DatabaseHolder {
    var instance: AppDatabase?

    /** A stored database keeps the table's key constraint. */
    ghost predicate Valid()
      reads this, if instance != null then {instance.menuDao} else {}
    {
      instance != null ==> instance.menuDao.Valid()
    }

    constructor ()
      ensures Valid() && instance == null
    {
      instance := null;
    }

    /** Returns the existing database, or builds it over the persisted table and remembers it. */
    method GetDatabase(persisted: seq<Menu>) returns (db: AppDatabase)
      requires UniqueIds(persisted)
      requires Valid()
      modifies this
      ensures Valid() && db.menuDao.Valid()
      ensures instance == db
      ensures old(instance) != null ==> db == old(instance)
      ensures old(instance) == null ==> fresh(db) && fresh(db.menuDao) && db.menuDao.Valid() && db.menuDao.rows == persisted
    {
      if instance != null {
        db := instance;
      } else {
        db := new AppDatabase(persisted);
        instance := db;
      }
    }
  }

  /** Two calls to `GetDatabase` hand out the same database, and so the same table. */
  method GetDatabaseTwice(holder: DatabaseHolder, persisted: seq<Menu>) returns (first: AppDatabase, second: AppDatabase)
    requires UniqueIds(persisted)
    requires holder.Valid()
    modifies holder
    ensures first == second && holder.instance == first
  {
    first := holder.GetDatabase(persisted);
    second := holder.GetDatabase(persisted);
  }
}

=== FILE: home.dfy ===
/** The event handlers of the Home screen: a new search text, and a click on one of the four
    category buttons. Each updates the view model's criteria and then refilters. */
module Home {
  import opened Catalog

  /** The category buttons, in the order they are laid out. */
  const Categories: seq<string> := ["starters", "mains", "desserts", "drinks"]

  /** The selection after clicking `category`: removed if it was selected, added otherwise. */
  function Toggle(selected: set<string>, category: string): (r: set<string>)
    ensures category in r <==> category !in selected
    ensures forall c :: c != category ==> (c in r <==> c in selected)
  {
    if category in selected then selected - {category} else selected + {category}
  }

  /** Clicking the same category twice restores the selection. */
  lemma ToggleTwiceRestores(selected: set<string>, category: string)
    ensures Toggle(Toggle(selected, category), category) == selected
  {
  }

  /** The selection after a run of clicks, in order. */
  function AfterClicks(selected: set<string>, clicks: seq<string>): set<string>
    decreases |clicks|
  {
    if clicks == [] then selected else AfterClicks(Toggle(selected, clicks[0]), clicks[1..])
  }

  /** Starting from a selection within the four buttons, clicks on those buttons keep it
      within them. */
  lemma {:induction false} ClicksStayWithinButtons(selected: set<string>, clicks: seq<string>)
    requires selected <= set c | c in Categories
    requires forall i :: 0 <= i < |clicks| ==> clicks[i] in Categories
    ensures AfterClicks(selected, clicks) <= set c | c in Categories
    decreases |clicks|
  {
    if clicks != [] {
      ClicksStayWithinButtons(Toggle(selected, clicks[0]), clicks[1..]);
    }
  }

  /** `onSearch`: store the query, then refilter. */
  method OnSearch(vm: HomeViewModel, query: string)
    modifies vm`query, vm`filtered
    ensures vm.query == query
    ensures vm.filtered == Filter(vm.allItems, query, vm.categories)
  {
    vm.query := query;
    vm.UpdateFilter();
  }

  /** `onCategorySelected`: toggle the category, then refilter. */
  method OnCategorySelected(vm: HomeViewModel, category: string)
    modifies vm`categories, vm`filtered
    ensures vm.categories == Toggle(old(vm.categories), category)
    ensures vm.filtered == Filter(vm.allItems, vm.query, vm.categories)
  {
    vm.categories := Toggle(vm.categories, category);
    vm.UpdateFilter();
  }
}

=== FILE: lists.dfy ===
/** Kotlin's `List.filter`: keep, in order, the elements a predicate accepts. */
module Lists {

  /** The elements of `s` that satisfy `p`, in their original order. */
  function Keep<T(!new)>(s: seq<T>, p: T -> bool): (r: seq<T>)
    ensures |r| <= |s|
    ensures forall x :: x in r <==> x in s && p(x)
  {
    if s == [] then []
    else
      var init := s[..|s| - 1];
      assert forall x :: x in s <==> x in init || x == s[|s| - 1];
      Keep(init, p) + (if p(s[|s| - 1]) then [s[|s| - 1]] else [])
  }

  /** `idx` lists, in strictly increasing order, positions of `b` that spell out `a`. */
  ghost predicate Embedding<T>(idx: seq<int>, a: seq<T>, b: seq<T>) {
    && |idx| == |a|
    && (forall k :: 0 <= k < |idx| ==> 0 <= idx[k] < |b| && a[k] == b[idx[k]])
    && (forall k, l :: 0 <= k < l < |idx| ==> idx[k] < idx[l])
  }

  /** `a` is `b` with some elements removed and the rest in the same relative order. */
  ghost predicate IsSubsequence<T>(a: seq<T>, b: seq<T>) {
    exists idx :: Embedding(idx, a, b)
  }

  /** The positions of `s` whose element satisfies `p`, in increasing order. */
  ghost function Positions<T>(s: seq<T>, p: T -> bool): seq<int> {
    if s == [] then []
    else Positions(s[..|s| - 1], p) + (if p(s[|s| - 1]) then [|s| - 1] else [])
  }

  /** `Keep` takes exactly the elements at the accepted positions, in order: the kept list
      embeds into the input through `Positions`, and a position is used iff `p` accepts it. */
  lemma {:induction false} KeepEmbedsAtPositions<T(!new)>(s: seq<T>, p: T -> bool)
    ensures Embedding(Positions(s, p), Keep(s, p), s)
    ensures forall j :: 0 <= j < |s| ==> (j in Positions(s, p) <==> p(s[j]))
    ensures forall j :: j in Positions(s, p) ==> 0 <= j < |s|
  {
    if s != [] {
      var n := |s| - 1;
      var init := s[..n];
      KeepEmbedsAtPositions(init, p);
      var pi, ki := Positions(init, p), Keep(init, p);
      var tailP: seq<int> := if p(s[n]) then [n] else [];
      var tailK: seq<T> := if p(s[n]) then [s[n]] else [];
      assert Positions(s, p) == pi + tailP;
      assert Keep(s, p) == ki + tailK;
      InitEmbedding(pi, ki, init, s);
      if p(s[n]) {
        ExtendEmbedding(pi, ki, s, n);
      }
      forall j | 0 <= j < |s| ensures j in pi + tailP <==> p(s[j]) {
        if j < n {
          assert init[j] == s[j];
        }
      }
    }
  }

  /** An embedding into a prefix is an embedding into the whole sequence. */
  lemma InitEmbedding<T>(idx: seq<int>, a: seq<T>, init: seq<T>, s: seq<T>)
    requires Embedding(idx, a, init)
    requires |init| <= |s| && init == s[..|init|]
    ensures Embedding(idx, a, s)
  {
  }

  /** An embedding whose positions all lie before `n` extends by the element at `n`. */
  lemma ExtendEmbedding<T>(idx: seq<int>, a: seq<T>, s: seq<T>, n: int)
    requires Embedding(idx, a, s)
    requires 0 <= n < |s|
    requires forall j :: j in idx ==> j < n
    ensures Embedding(idx + [n], a + [s[n]], s)
  {
    var idx', a' := idx + [n], a + [s[n]];
    forall k, l | 0 <= k < l < |idx'| ensures idx'[k] < idx'[l] {
      if l == |idx| {
        assert idx[k] in idx;
      }
    }
  }

  /** Two predicates that agree on every element of the list keep the same elements. */
  lemma {:induction false} KeepSamePred<T(!new)>(s: seq<T>, p: T -> bool, p': T -> bool)
    requires forall x :: x in s ==> p(x) == p'(x)
    ensures Keep(s, p) == Keep(s, p')
  {
    if s != [] {
      var n := |s| - 1;
      var init := s[..n];
      forall x | x in init ensures p(x) == p'(x) {
        var k :| 0 <= k < n && init[k] == x;
        assert s[k] == x;
      }
      KeepSamePred(init, p, p');
      assert s[n] in s;
    }
  }

  /** Filtering distributes over concatenation. */
  lemma {:induction false} KeepAppend<T(!new)>(a: seq<T>, b: seq<T>, p: T -> bool)
    ensures Keep(a + b, p) == Keep(a, p) + Keep(b, p)
    decreases |b|
  {
    if b != [] {
      var n := |b| - 1;
      assert (a + b)[..|a + b| - 1] == a + b[..n];
      KeepAppend(a, b[..n], p);
    } else {
      assert a + b == a;
    }
  }

  /** A predicate that accepts everything keeps the list as it is. */
  lemma {:induction false} KeepAll<T(!new)>(s: seq<T>, p: T -> bool)
    requires forall x :: x in s ==> p(x)
    ensures Keep(s, p) == s
  {
    if s != [] {
      var n := |s| - 1;
      KeepAll(s[..n], p);
      assert s[..n] + [s[n]] == s;
    }
  }

  /** Filtering twice with the same predicate is filtering once. */
  lemma KeepIdempotent<T(!new)>(s: seq<T>, p: T -> bool)
    ensures Keep(Keep(s, p), p) == Keep(s, p)
  {
    KeepAll(Keep(s, p), p);
  }

  /** The order of two filters does not matter. */
  lemma {:induction false} KeepCommutes<T(!new)>(s: seq<T>, p: T -> bool, q: T -> bool)
    ensures Keep(Keep(s, p), q) == Keep(Keep(s, q), p)
  {
    if s != [] {
      var n := |s| - 1;
      var init, last := s[..n], [s[n]];
      KeepCommutes(init, p, q);
      var lp := if p(s[n]) then last else [];
      var lq := if q(s[n]) then last else [];
      KeepAppend(Keep(init, p), lp, q);
      KeepAppend(Keep(init, q), lq, p);
      assert Keep(lp, q) == Keep(lq, p) by {
        assert Keep(lp, q) == if p(s[n]) && q(s[n]) then last else [];
        assert Keep(lq, p) == if p(s[n]) && q(s[n]) then last else [];
      }
    }
  }
}

=== FILE: navigation.dfy ===
/** The navigation host: the three destinations with their routes, the screen each route
    shows, and the start destination chosen from the `user_registered` flag. */
module Navigation {
  import opened Preferences

  /** The destination objects, each with its route string. */
  datatype Destination = Onboarding | Home | Profile {
    function Route(): string {
      match this
      case Onboarding => "Onboarding"
      case Home => "Home"
      case Profile => "Profile"
    }
  }

  /** The composable screens a route can show. */
  datatype Screen = OnboardingScreen | HomeScreen | ProfileScreen

  /** The screen registered for each destination. */
  function ScreenFor(d: Destination): Screen {
    match d
    case Onboarding => OnboardingScreen
    case Home => HomeScreen
    case Profile => ProfileScreen
  }

  /** The navigation graph: route string to screen. */
  function NavGraph(): map<string, Screen> {
    map[Onboarding.Route() := OnboardingScreen, Home.Route() := HomeScreen, Profile.Route() := ProfileScreen]
  }

  /** Exactly three routes are registered; each destination's route leads to its own screen,
      and no two destinations share a route or a screen. */
  lemma NavGraphBindsEachDestination()
    ensures |NavGraph()| == 3
    ensures forall d: Destination :: d.Route() in NavGraph() && NavGraph()[d.Route()] == ScreenFor(d)
    ensures forall d: Destination, d': Destination :: d != d' ==> d.Route() != d'.Route() && ScreenFor(d) != ScreenFor(d')
  {
  }

  /** The start destination: Home for a registered user, Onboarding otherwise. */
  function StartDestination(m: Store): (d: Destination)
    requires BoolOrAbsent(m, UserRegistered)
    ensures d == Home || d == Onboarding
  {
    if GetBoolean(m, UserRegistered, false) then Home else Onboarding
  }

  /** The start is Home exactly when `user_registered` is stored as true, and Onboarding
      in every other case; it is never Profile. */
  lemma StartIsHomeIffRegistered(m: Store)
    requires BoolOrAbsent(m, UserRegistered)
    ensures StartDestination(m) == Home <==> UserRegistered in m && m[UserRegistered] == BoolValue(true)
    ensures StartDestination(m) != Home ==> StartDestination(m) == Onboarding
  {
  }

  /** A user who never registered starts at Onboarding. */
  lemma NeverRegisteredStartsAtOnboarding(m: Store)
    requires UserRegistered !in m
    ensures StartDestination(m) == Onboarding
  {
  }

  /** The start destination is always a registered route. */
  lemma StartIsRegisteredRoute(m: Store)
    requires BoolOrAbsent(m, UserRegistered)
    ensures StartDestination(m).Route() in NavGraph()
  {
  }
}

=== FILE: network.dfy ===
/** The remote menu: the JSON shapes `MenuItemNetwork` and `MenuResponse`, their mapping to
    table rows, and `Api.fetchMenu`, which turns every failure into the empty list. The HTTP
    request and the JSON decoding are not modelled: their combined outcome is a parameter. */
module Network {
  import opened Database

  /** One element of the `menu` array of the endpoint's JSON body. */
  datatype MenuItemNetwork = MenuItemNetwork(id: int, title: string, description: string, price: string, image: string, category: string)

  /** The whole JSON body: `{ "menu": [ ... ] }`. */
  datatype MenuResponse = MenuResponse(menu: seq<MenuItemNetwork>)

  /** What the GET request followed by decoding produced: a decoded body, or an exception
      from the transport or the decoder. */
  datatype FetchOutcome = Success(response: MenuResponse) | Failure

  /** `toMenu`: the same six fields, as a table row. */
  function ToMenu(n: MenuItemNetwork): (m: Menu)
    ensures m.id == n.id && m.title == n.title && m.description == n.description
    ensures m.price == n.price && m.image == n.image && m.category == n.category
  {
    Menu(n.id, n.title, n.description, n.price, n.image, n.category)
  }

  /** `toMenu` loses nothing: different network items give different rows. */
  lemma ToMenuInjective(a: MenuItemNetwork, b: MenuItemNetwork)
    requires ToMenu(a) == ToMenu(b)
    ensures a == b
  {
  }

  /** `map { it.toMenu() }`: each item mapped in place, so length and order are kept. */
  function ToMenus(items: seq<MenuItemNetwork>): (r: seq<Menu>)
    ensures |r| == |items|
    ensures forall i :: 0 <= i < |items| ==> r[i] == ToMenu(items[i])
  {
    if items == [] then [] else [ToMenu(items[0])] + ToMenus(items[1..])
  }

  /** The ids of a list of network items are pairwise distinct. */
  predicate DistinctIds(items: seq<MenuItemNetwork>) {
    forall i, j :: 0 <= i < j < |items| ==> items[i].id != items[j].id
  }

  /** The mapped rows satisfy the table's key constraint exactly when the network ids are
      distinct, and they carry the same ids. */
  lemma ToMenusKeepsIds(items: seq<MenuItemNetwork>)
    ensures UniqueIds(ToMenus(items)) <==> DistinctIds(items)
    ensures Ids(ToMenus(items)) == set n | n in items :: n.id
  {
  }

  /** `Api.fetchMenu`: the decoded `menu` list on success, the empty list on any exception.
      It never fails. */
  function FetchMenu(outcome: FetchOutcome): (r: seq<MenuItemNetwork>)
    ensures outcome.Success? ==> r == outcome.response.menu
    ensures outcome.Failure? ==> r == []
  {
    match outcome
    case Success(response) => response.menu
    case Failure => []
  }

  /** A failed fetch cannot be told apart from a server whose menu is genuinely empty. */
  lemma FailureLooksEmpty()
    ensures FetchMenu(Failure) == FetchMenu(Success(MenuResponse([])))
  {
  }

  /** The fetch result is empty exactly when the request failed or the menu was empty. */
  lemma FetchEmptyIff(outcome: FetchOutcome)
    ensures FetchMenu(outcome) == [] <==> outcome.Failure? || outcome.response.menu == []
  {
  }
}

=== FILE: onboarding.dfy ===
/** The Register button of the onboarding screen: reject a form with an empty field; otherwise
    write the flag and the three fields in one edit and go to Home. */
module Onboarding {
  import opened Preferences
  import Navigation

  const RejectedMessage := "Registration unsuccessful. Please enter all data."
  const AcceptedMessage := "Registration successful!"

  /** The three text fields of the form. */
  datatype Form = Form(firstName: string, lastName: string, email: string)

  /** Every field starts out empty. */
  const InitialForm := Form("", "", "")

  /** What pressing Register does: a rejection with its message and nothing else, or an
      acceptance with its message and the next destination. */
  datatype RegisterOutcome = Rejected(message: string) | Registered(message: string, next: Navigation.Destination)

  /** The guard: no field may be empty (blank fields are allowed). */
  predicate IsComplete(form: Form)
    ensures IsComplete(form) <==> forall f :: f in [form.firstName, form.lastName, form.email] ==> |f| > 0
    ensures IsComplete(form) ==> form != InitialForm
  {
    !(form.firstName == "" || form.lastName == "" || form.email == "")
  }

  /** The edit written on acceptance. */
  function RegistrationEdit(form: Form): (e: Editor)
    ensures !e.clearFirst && e.puts.Keys == {UserRegistered, FirstName, LastName, Email}
    ensures e.puts[UserRegistered] == BoolValue(true)
    ensures e.puts[FirstName] == StringValue(form.firstName)
    ensures e.puts[LastName] == StringValue(form.lastName)
    ensures e.puts[Email] == StringValue(form.email)
  {
    Edit()
      .PutBoolean(UserRegistered, true)
      .PutString(FirstName, form.firstName)
      .PutString(LastName, form.lastName)
      .PutString(Email, form.email)
  }

  /** Committing the registration edit sets the flag and the three fields to exactly the
      entered texts and leaves every other key as it was. */
  lemma RegistrationWritesFourKeys(m: Store, form: Form)
    ensures Applied(m, RegistrationEdit(form)) ==
      m[UserRegistered := BoolValue(true)][FirstName := StringValue(form.firstName)]
       [LastName := StringValue(form.lastName)][Email := StringValue(form.email)]
    ensures WellTyped(Applied(m, RegistrationEdit(form)))
  {
  }

  /** Pressing Register on an untouched form is rejected. */
  lemma InitialFormRejected()
    ensures !IsComplete(InitialForm)
  {
  }

  /** Fields made only of spaces pass the guard. */
  lemma BlankFieldsAccepted(form: Form)
    requires |form.firstName| > 0 && |form.lastName| > 0 && |form.email| > 0
    requires forall c :: c in form.firstName + form.lastName + form.email ==> c == ' '
    ensures IsComplete(form)
  {
  }

  /** After registering, the app starts at Home. */
  lemma RegisteredStartsAtHome(m: Store, form: Form)
    ensures BoolOrAbsent(Applied(m, RegistrationEdit(form)), UserRegistered)
    ensures Navigation.StartDestination(Applied(m, RegistrationEdit(form))) == Navigation.Home
  {
  }

  /** The Register button's click handler. */
  method Register(prefs: SharedPreferences, form: Form) returns (outcome: RegisterOutcome)
    modifies prefs
    ensures outcome.Rejected? <==> !IsComplete(form)
    ensures outcome.Rejected? ==> outcome.message == RejectedMessage && prefs.entries == old(prefs.entries)
    ensures outcome.Registered? ==> outcome.message == AcceptedMessage && outcome.next == Navigation.Home
    ensures outcome.Registered? ==> prefs.entries == Applied(old(prefs.entries), RegistrationEdit(form))
  {
    if form.firstName == "" || form.lastName == "" || form.email == "" {
      return Rejected(RejectedMessage);
    }
    prefs.Commit(RegistrationEdit(form));
    outcome := Registered(AcceptedMessage, Navigation.Home);
  }
}

=== FILE: preferences.dfy ===
/** The `little_lemon` SharedPreferences file shared by onboarding, profile and navigation:
    a map from keys to typed values, read with a default, and changed only through an
    editor whose pending changes are applied together by `commit()`. */
module Preferences {

  const UserRegistered := "user_registered"
  const FirstName := "first_name"
  const LastName := "last_name"
  const Email := "email"

  /** A stored preference value. */
  datatype Value = BoolValue(b: bool) | StringValue(s: string)

  type Store = map<string, Value>

  /** A key holds no value of the wrong type: absent, or a boolean. Android's `getBoolean`
      throws on any other stored type. */
  predicate BoolOrAbsent(m: Store, key: string) {
    key !in m || m[key].BoolValue?
  }

  /** A key is absent or holds a string. Android's `getString` throws on any other type. */
  predicate StringOrAbsent(m: Store, key: string) {
    key !in m || m[key].StringValue?
  }

  /** The types this app gives its four keys. */
  predicate WellTyped(m: Store) {
    BoolOrAbsent(m, UserRegistered) && StringOrAbsent(m, FirstName) &&
    StringOrAbsent(m, LastName) && StringOrAbsent(m, Email)
  }

  /** `getBoolean(key, default)`. */
  function GetBoolean(m: Store, key: string, default: bool): (r: bool)
    requires BoolOrAbsent(m, key)
    ensures key in m ==> m[key] == BoolValue(r)
    ensures key !in m ==> r == default
  {
    if key in m then m[key].b else default
  }

  /** `getString(key, default)`. */
  function GetString(m: Store, key: string, default: string): (r: string)
    requires StringOrAbsent(m, key)
    ensures key in m ==> m[key] == StringValue(r)
    ensures key !in m ==> r == default
  {
    if key in m then m[key].s else default
  }

  /** The pending changes of an `Editor`: whether `clear()` was called, and the values put. */
  datatype Editor = Editor(clearFirst: bool, puts: map<string, Value>) {

    /** `putBoolean`: committing the extended editor is committing this one and then writing
        the key, so a later put of a key replaces an earlier one. */
    function PutBoolean(key: string, value: bool): (e: Editor)
      ensures forall m :: Applied(m, e) == Applied(m, this)[key := BoolValue(value)]
    {
      this.(puts := puts[key := BoolValue(value)])
    }

    /** `putString`: committing the extended editor is committing this one and then writing
        the key. */
    function PutString(key: string, value: string): (e: Editor)
      ensures forall m :: Applied(m, e) == Applied(m, this)[key := StringValue(value)]
    {
      this.(puts := puts[key := StringValue(value)])
    }

    /** `clear`: the commit then starts from an empty file, whatever it held and whenever the
        clear was called among the puts. */
    function Clear(): (e: Editor)
      ensures forall m :: Applied(m, e) == Applied(map[], this)
    {
      this.(clearFirst := true)
    }
  }

  /** `edit()`: an editor with no pending change; committing it leaves the file as it is. */
  function Edit(): (e: Editor)
    ensures forall m :: Applied(m, e) == m
  {
    Editor(false, map[])
  }

  /** The map after committing an editor: a requested clear empties it first, whatever the
      order of the calls, and then every put is written. */
  function Applied(m: Store, e: Editor): (r: Store)
    ensures r.Keys == (if e.clearFirst then e.puts.Keys else m.Keys + e.puts.Keys)
    ensures forall k :: k in e.puts ==> r[k] == e.puts[k]
  {
    (if e.clearFirst then map[] else m) + e.puts
  }

  /** A committed editor sets each put key to its value, keeps every other key unless a clear
      was requested, and drops every other key if it was. */
  lemma AppliedPointwise(m: Store, e: Editor)
    ensures forall k :: k in e.puts ==> k in Applied(m, e) && Applied(m, e)[k] == e.puts[k]
    ensures forall k :: k !in e.puts && !e.clearFirst ==> (k in Applied(m, e) <==> k in m)
    ensures forall k :: k !in e.puts && !e.clearFirst && k in m ==> Applied(m, e)[k] == m[k]
    ensures forall k :: k !in e.puts && e.clearFirst ==> k !in Applied(m, e)
  {
  }

  /** Committing `edit().clear()` empties the file, so every read gives its default. */
  lemma ClearedReadsDefaults(m: Store, key: string, sd: string, bd: bool)
    ensures Applied(m, Edit().Clear()) == map[]
    ensures GetString(Applied(m, Edit().Clear()), key, sd) == sd
    ensures GetBoolean(Applied(m, Edit().Clear()), key, bd) == bd
  {
  }

  /** The preferences object the app obtains with `getSharedPreferences("little_lemon", ...)`. */
  class SharedPreferences {
    var entries: Store

    /** Opens the file with the values already persisted on the device. */
    constructor (persisted: Store)
      requires WellTyped(persisted)
      ensures entries == persisted && WellTyped(entries)
    {
      entries := persisted;
    }

    /** `commit()`: applies the editor's changes in one step. */
    method Commit(e: Editor)
      modifies this
      ensures entries == Applied(old(entries), e)
    {
      entries := Applied(entries, e);
    }
  }
}

=== FILE: profile.dfy ===
/** The profile screen: the three stored fields, each read with the default "", and the
    Log out button, which clears the file and then goes to Onboarding. */
module Profile {
  import opened Preferences
  import Navigation
  import Onboarding

  /** The three values the screen shows. */
  datatype ProfileView = ProfileView(firstName: string, lastName: string, email: string)

  /** The profile keys are absent or hold strings. */
  predicate ProfileReadable(m: Store) {
    StringOrAbsent(m, FirstName) && StringOrAbsent(m, LastName) && StringOrAbsent(m, Email)
  }

  /** Each shown field is the stored string of its key, or "" when the key is absent. */
  function ReadProfile(m: Store): (v: ProfileView)
    requires ProfileReadable(m)
    ensures FirstName in m ==> m[FirstName] == StringValue(v.firstName)
    ensures LastName in m ==> m[LastName] == StringValue(v.lastName)
    ensures Email in m ==> m[Email] == StringValue(v.email)
    ensures FirstName !in m ==> v.firstName == ""
    ensures LastName !in m ==> v.lastName == ""
    ensures Email !in m ==> v.email == ""
  {
    ProfileView(GetString(m, FirstName, ""), GetString(m, LastName, ""), GetString(m, Email, ""))
  }

  /** The edit committed by Log out. */
  function LogoutEdit(): (e: Editor)
    ensures e.clearFirst && e.puts == map[]
  {
    Edit().Clear()
  }

  /** After a registration, the profile shows exactly the entered texts. */
  lemma RegisteredProfileReadsBack(m: Store, form: Onboarding.Form)
    ensures ProfileReadable(Applied(m, Onboarding.RegistrationEdit(form)))
    ensures ReadProfile(Applied(m, Onboarding.RegistrationEdit(form))) ==
      ProfileView(form.firstName, form.lastName, form.email)
  {
  }

  /** After Log out every key is gone, so all three fields read "". */
  lemma LoggedOutProfileIsEmpty(m: Store)
    ensures Applied(m, LogoutEdit()) == map[]
    ensures ReadProfile(Applied(m, LogoutEdit())) == ProfileView("", "", "")
  {
  }

  /** After Log out the app starts at Onboarding again. */
  lemma LoggedOutStartsAtOnboarding(m: Store)
    ensures Navigation.StartDestination(Applied(m, LogoutEdit())) == Navigation.Onboarding
  {
  }

  /** Register, then log out: the file is empty again, whatever it held before. */
  lemma RegisterThenLogoutForgetsEverything(m: Store, form: Onboarding.Form)
    ensures Applied(Applied(m, Onboarding.RegistrationEdit(form)), LogoutEdit()) == map[]
  {
  }

  /** The Log out click handler: the clear is committed first, and only then does it
      navigate, to Onboarding. */
  method Logout(prefs: SharedPreferences) returns (next: Navigation.Destination)
    modifies prefs
    ensures prefs.entries == map[]
    ensures next == Navigation.Onboarding
  {
    prefs.Commit(LogoutEdit());
    LoggedOutProfileIsEmpty(old(prefs.entries));
    next := Navigation.Onboarding;
  }
}

=== FILE: text.dfy ===
/** Case-insensitive substring search, as Kotlin's `String.contains(other, ignoreCase = true)`
    uses it in the menu filter. Case folding is modelled on ASCII letters only. */
module Text {

  /** Lower-cases an ASCII upper-case letter and leaves every other character alone. */
  function Lower(c: char): (r: char)
    ensures 'A' <= c <= 'Z' ==> 'a' <= r <= 'z' && r as int - c as int == 32
    ensures !('A' <= c <= 'Z') ==> r == c
  {
    if 'A' <= c <= 'Z' then (c as int + 32) as char else c
  }

  /** Two characters are equal when case is ignored. */
  predicate SameIgnoringCase(a: char, b: char) {
    Lower(a) == Lower(b)
  }

  /** The query `q` occurs in `s` at offset `i`, ignoring case. */
  ghost predicate OccursAt(s: string, q: string, i: int) {
    0 <= i && i + |q| <= |s| &&
    forall j :: 0 <= j < |q| ==> SameIgnoringCase(s[i + j], q[j])
  }

  /** `q` is a prefix of `s`, ignoring case. */
  predicate PrefixIgnoringCase(q: string, s: string)
    ensures PrefixIgnoringCase(q, s) <==> OccursAt(s, q, 0)
  {
    |q| <= |s| && forall j :: 0 <= j < |q| ==> SameIgnoringCase(s[j], q[j])
  }

  /** Whether `q` is a case-insensitive substring of `s`: the search tries every offset
      from left to right, and a query longer than the text is never found. */
  function ContainsIgnoreCase(s: string, q: string): (r: bool)
    ensures r <==> exists i :: OccursAt(s, q, i)
    decreases |s|
  {
    if |q| > |s| then
      false
    else if PrefixIgnoringCase(q, s) then
      true
    else
      var r := ContainsIgnoreCase(s[1..], q);
      assert r ==> exists i :: OccursAt(s, q, i) by {
        if r {
          var i :| OccursAt(s[1..], q, i);
          OccursInTail(s, q, i);
        }
      }
      assert (exists i :: OccursAt(s, q, i)) ==> r by {
        if i :| OccursAt(s, q, i) {
          assert i != 0;
          OccursInTail(s, q, i - 1);
        }
      }
      r
  }

  /** An occurrence in the text without its first character is an occurrence one place
      further on in the whole text, and conversely. */
  lemma OccursInTail(s: string, q: string, i: int)
    requires |s| > 0 && 0 <= i
    ensures OccursAt(s[1..], q, i) <==> OccursAt(s, q, i + 1)
  {
  }

  /** The empty query is contained in every string. */
  lemma EmptyQueryEverywhere(s: string)
    ensures ContainsIgnoreCase(s, "")
  {
  }

  /** Changing the case of ASCII letters in the query does not change whether a query is found. */
  lemma CaseOfQueryIrrelevant(s: string, q: string, q': string)
    requires |q| == |q'|
    requires forall j :: 0 <= j < |q| ==> SameIgnoringCase(q[j], q'[j])
    ensures ContainsIgnoreCase(s, q) <==> ContainsIgnoreCase(s, q')
  {
    if ContainsIgnoreCase(s, q) {
      var i :| OccursAt(s, q, i);
      assert OccursAt(s, q', i);
    }
    if ContainsIgnoreCase(s, q') {
      var i :| OccursAt(s, q', i);
      assert OccursAt(s, q, i);
    }
  }

  /** A query whose first letter occurs at no offset where the query would still fit is not
      contained. */
  lemma FirstLetterNeverFits(s: string, q: string)
    requires |q| > 0
    requires forall i :: 0 <= i && i + |q| <= |s| ==> !SameIgnoringCase(s[i], q[0])
    ensures !ContainsIgnoreCase(s, q)
  {
    if i :| OccursAt(s, q, i) {
      assert SameIgnoringCase(s[i], q[0]);
    }
  }
}
